=== FILE: README.md ===
# Project quoter — a Dafny model

This project models the project quoting calculator of the ErikaRTech landing
page (`components/project-quoter.tsx`). The calculator has four parts:

- **Pricing catalog.** Three service categories: web pages, e-commerce and
  mobile apps. Each has an ordered list of mutually exclusive base options and
  an ordered list of independently toggleable extras, all with integer prices.
- **Selection state.** The state holds the active category, the chosen option
  id (the empty id means none) and the ordered list of chosen extra ids. Three
  transitions change it: change category (clears option and extras), choose
  option (replaces it, no validation), and toggle extra (remove if present,
  else append).
- **Total.** The chosen option's price plus the chosen extras' prices. Every
  id is looked up in the active category, and an id that does not resolve adds
  0.
- **Outreach message.** Sending is refused while no option is chosen.
  Otherwise the message is the greeting, the option's name, an optional
  `" con "` clause listing the extras' names joined by `" y "`, and the budget
  sentence with the rendered total.

Modules, one per part:

| file | module | contents |
|---|---|---|
| `wrappers.dfy` | `Wrappers` | `Option`, `Result` |
| `catalog.dfy` | `Catalog` | `Item`, `Category`, the `CATALOG` constant, find-by-id lookups, well-formedness |
| `selection.dfy` | `QuoteState` | `Selection`, the three transitions, view events, the consistency invariant |
| `pricing.dfy` | `Pricing` | the total, an order-free reference sum, and how each transition moves the total |
| `rendering.dfy` | `Rendering` | decimal numerals and thousands grouping with a separator parameter |
| `outreach.dfy` | `Outreach` | option and extra names, `Join`, the message, the send guard |
| `scenarios.dfy` | `Scenarios` | concrete walks through the catalog as defined |

Behaviour the model follows from the code:

- **Choosing an option is not validated.** An option id from another category
  is stored. It prices at 0 and is named `undefined` in the message
  (`Scenarios.ForeignIdsTotal`, `Scenarios.ForeignIdsMessage`). A stricter
  design would reject such an id; the code does not, and neither does the
  model.
- **Chosen extras are a list, not a set.** Toggling a present id removes every
  occurrence of it. Toggling an absent id appends it. So toggling an absent id
  twice always restores the list exactly (`QuoteState.ToggleTwiceAbsent`). A
  present id is filtered out and then appended at the end. The list changes
  order unless that id already occurred once, in the last place
  (`QuoteState.ToggleTwiceLast`):
  `["seo", "multilanguage"]` toggled twice on `"seo"` becomes
  `["multilanguage", "seo"]` (`QuoteState.ToggleTwiceReorders`). The same ids
  stay chosen and the total is restored. Only the order of names in the
  message changes.
- **Unresolved extra ids render as empty text.** `Array.join` renders
  `undefined` as empty text. So an extras list holding only an unresolved id
  gives no `" con "` clause at all.
- **Which ids the view can send.** The view only renders the active
  category's radio items (line 201) and checkboxes (lines 237-238). So
  `QuoteState.Offered` restricts events to those ids. Under that restriction,
  every reachable selection is `Consistent` (`QuoteState.ReachableIsConsistent`).

## Model

| member | source | states |
|---|---|---|
| Catalog.FindIndex | components/project-quoter.tsx:90 | the position found is that of the FIRST entry carrying the id; none is found exactly when no entry carries it |
| Catalog.FindItem | components/project-quoter.tsx:96 | `find` by id: returns the first matching entry, or none exactly when no entry matches |
| Catalog.FindDistinct | components/project-quoter.tsx:36-78 | with unique ids, looking up an entry's own id yields that very entry |
| Catalog.FindCategory | components/project-quoter.tsx:85 | the category found is a catalog member with the requested tag; none only when no category has the tag |
| Catalog.CatalogCoversEveryId | components/project-quoter.tsx:85 | every category tag resolves, so the non-null assertion on the lookup never fails |
| Catalog.CurrentCategory | components/project-quoter.tsx:85 | the active category record is the catalog member carrying the selected tag, and it is well formed |
| Catalog.CatalogIsWellFormed | components/project-quoter.tsx:36-78 | category tags are distinct; option ids and extra ids are distinct within each category; prices are non-negative; names are non-empty; no option uses the empty id; the first category is web |
| QuoteState.InitialState | components/project-quoter.tsx:81-83 | the initial state is the first category with no option and no extras, and is consistent |
| QuoteState.CategoryChangeResets | components/project-quoter.tsx:104-108 | a category change yields the new category with no option and no extras, whatever the prior state |
| QuoteState.ChooseOptionReplaces | components/project-quoter.tsx:110-112 | choosing stores the id unvalidated, replaces any earlier choice, and keeps category and extras |
| QuoteState.ChangeCategory | components/project-quoter.tsx:104-108 | the new category with no option and no extras, which is always consistent; `CategoryChangeResets` shows the prior state does not matter |
| QuoteState.ChooseOption | components/project-quoter.tsx:110-112 | the id becomes the option, unvalidated; category and extras are unchanged; choosing an option of the active category keeps a consistent selection consistent |
| QuoteState.ToggleExtra | components/project-quoter.tsx:114-120 | category and option are unchanged; the id's membership in the extras flips; every other id keeps its count; no duplicates stay no duplicates; `ToggleKeepsConsistent` shows consistency is kept for an extra of the active category |
| QuoteState.Without | components/project-quoter.tsx:117 | the filter removes every occurrence of the id, keeps every other id's count, and keeps the order of the rest |
| QuoteState.Toggle | components/project-quoter.tsx:114-120 | the id's membership flips; other ids keep their counts; a removal keeps the rest in order; an addition goes at the end; no duplicates stay no duplicates |
| QuoteState.ToggleTwiceAbsent | components/project-quoter.tsx:114-120 | toggling an absent id twice restores the list exactly |
| QuoteState.ToggleTwiceLast | components/project-quoter.tsx:114-120 | toggling twice an id that occurs once, in the last place, restores the list exactly |
| QuoteState.ToggleTwiceSameIds | components/project-quoter.tsx:114-120 | toggling any id twice on a duplicate-free list restores the same chosen ids |
| QuoteState.ToggleTwiceReorders | components/project-quoter.tsx:116-118 | toggling a present id twice can move it to the end, so list equality is not restored |
| QuoteState.ToggleKeepsConsistent | components/project-quoter.tsx:237-238 | toggling an extra of the active category keeps the extras distinct and resolvable |
| QuoteState.Offered | components/project-quoter.tsx:199-238 | a category button is always offered; an option or extra click is offered exactly when its id is that of an option, respectively an extra, of the active category, so every rendered radio item and checkbox is offered; an offered option id is never empty |
| QuoteState.Step | components/project-quoter.tsx:164-238 | a category click yields that category with nothing chosen; no other event changes the category; an extra click keeps the option; `StepKeepsConsistent` shows an offered event keeps the selection consistent |
| QuoteState.Run | components/project-quoter.tsx:164-238 | no events leave the state alone; a sequence whose last event is a category click ends in that category with nothing chosen; `RunSnoc` shows the events are applied one after another, in order; `ReachableIsConsistent` shows offered sequences keep consistency |
| QuoteState.RunSnoc | components/project-quoter.tsx:164-238 | running one more event applies it, as a single step, to the state the earlier events reached |
| QuoteState.StepKeepsConsistent | components/project-quoter.tsx:104-120 | every transition the view offers keeps the selection consistent with the active category |
| QuoteState.ReachableIsConsistent | components/project-quoter.tsx:104-120 | every state reached by offered events from a consistent state is consistent |
| Pricing.PriceOf | components/project-quoter.tsx:96-99 | an id that does not resolve contributes 0; with unique ids a resolving id contributes its entry's price; never negative when prices are not |
| Pricing.SumExtras | components/project-quoter.tsx:95-100 | the accumulated extras sum is non-negative when prices are |
| Pricing.QuoteTotal | components/project-quoter.tsx:87-102 | the total for a well-formed category is non-negative |
| Pricing.Total | components/project-quoter.tsx:85-102 | the total of every selection, priced against its active category, is non-negative |
| Pricing.WeightedSumPoint | components/project-quoter.tsx:95-100 | changing how often one id is chosen moves the reference sum by that change times the id's price |
| Pricing.SumExtrasIsWeightedSum | components/project-quoter.tsx:95-100 | the accumulated sum over the list equals the order-free reference: each entry's price times how often it was chosen |
| Pricing.TotalIgnoresOrder | components/project-quoter.tsx:95-100 | two selections with the same category, option and chosen ids in any order have the same total |
| Pricing.TotalIsExactSum | components/project-quoter.tsx:87-101 | the total is the option's price plus each extra's price times its number of choices; unresolved ids add nothing |
| Pricing.InitialTotalIsZero | components/project-quoter.tsx:81-101 | the initial total is 0 |
| Pricing.TotalAfterCategoryChange | components/project-quoter.tsx:104-108 | right after any category change the total is 0 |
| Pricing.TotalOfOptionAlone | components/project-quoter.tsx:90-93 | with no extras, choosing an option of the active category makes the total exactly its price |
| Pricing.SumShift | components/project-quoter.tsx:95-100 | two lists that differ only in how often one id occurs differ in sum by that many times its price |
| Pricing.SumAfterToggle | components/project-quoter.tsx:114-120 | toggling an id on a duplicate-free list adds or subtracts exactly that id's price |
| Pricing.TotalAfterToggle | components/project-quoter.tsx:114-120 | toggling an extra on adds its price and toggling it off subtracts it; an unresolved id changes nothing |
| Pricing.TotalAfterToggleTwice | components/project-quoter.tsx:114-120 | toggling the same extra twice restores the total |
| Rendering.Decimal | components/project-quoter.tsx:135 | the numeral is non-empty, all digits, and has no leading zero |
| Rendering.DecimalRoundTrip | components/project-quoter.tsx:135 | reading back the numeral of n gives n |
| Rendering.DecimalSplit | components/project-quoter.tsx:135 | the numeral of n is the numeral of n / 1000 followed by the last three digits |
| Rendering.UngroupIsDecimal | components/project-quoter.tsx:135 | deleting a non-digit separator from the grouped rendering gives the plain numeral |
| Rendering.GroupingRoundTrip | components/project-quoter.tsx:135 | the grouped rendering with a non-digit separator denotes exactly n |
| Rendering.GroupThousands | components/project-quoter.tsx:135 | the rendering is exactly the reference `Insert3` applied to the plain numeral: the separator goes before every block of three digits counted from the right, never at the front; it starts with a digit; `UngroupIsDecimal` and `GroupingRoundTrip` show that with a one-character non-digit separator it reads back as n |
| Rendering.LocaleString | components/project-quoter.tsx:135 | a non-negative total renders as its numeral grouped by threes from the right (`Insert3`), a negative one as a minus sign before its magnitude so grouped; the first character is a minus sign exactly when the total is negative; with a one-character non-digit separator, deleting the separators and the sign reads back as the magnitude |
| Rendering.DotGroupingExample | components/project-quoter.tsx:135 | with a dot separator, 6500 renders as 6.500 |
| Rendering.GroupingExamples | components/project-quoter.tsx:135 | 0, 400 and 65000 render as 0, 400 and 65,000 with a comma separator |
| Outreach.OptionName | components/project-quoter.tsx:128 | the chosen option's name, or the text undefined when the id does not resolve |
| Outreach.ExtraName | components/project-quoter.tsx:129 | an extra's name, or empty text when the id does not resolve; non-empty for a resolving id of a well-named list |
| Outreach.ExtraNames | components/project-quoter.tsx:129 | one name per chosen id, in the order the ids were chosen |
| Outreach.Join | components/project-quoter.tsx:129 | the joined text is empty for no parts and is the part itself for one part; it starts with the first part and ends with the last; `JoinSnoc` shows each further part comes after one separator, so the join is fixed for every list |
| Outreach.JoinEmptyIff | components/project-quoter.tsx:129-132 | with a non-empty separator the joined text is empty exactly for no parts or a single empty part |
| Outreach.JoinSnoc | components/project-quoter.tsx:129 | joining one more part appends the separator and that part |
| Outreach.ExtrasClause | components/project-quoter.tsx:132-134 | the clause is empty exactly when the joined names are empty, and is otherwise " con " followed by them; `ClauseIffExtras` shows that for resolving extras it is present exactly when extras are chosen |
| Outreach.Message | components/project-quoter.tsx:128-135 | the message opens with the greeting and the option's name and closes with the budget sentence around the rendered total; `MessageShape` gives the exact text in between |
| Outreach.SendEnabled | components/project-quoter.tsx:308 | the send button is enabled exactly when an option is chosen; for a consistent selection, exactly when the option resolves in the active category; `SendRefusedWithoutOption` shows the handler refuses under the same guard |
| Outreach.Send | components/project-quoter.tsx:122-135 | sending is refused, with the no-option error, exactly when no option is chosen (the same guard disables the button at line 308); otherwise the message starts with the greeting and option name and ends with the budget sentence |
| Outreach.SendRefusedWithoutOption | components/project-quoter.tsx:123-126 | with no option chosen, sending is refused for every category and extras list |
| Outreach.MessageWithoutExtras | components/project-quoter.tsx:131-135 | with no extras the message has no clause: greeting, option name, budget sentence |
| Outreach.ClauseIffExtras | components/project-quoter.tsx:129-134 | when every chosen extra resolves in a well-formed category, the clause is present exactly when extras are chosen, and it is " con " plus the names joined by " y " |
| Outreach.MessageShape | components/project-quoter.tsx:128-135 | for a consistent selection with an option, the message is exactly greeting, option name, the clause exactly when extras are chosen, and the budget sentence |
| Scenarios.WebLandingScenario | components/project-quoter.tsx:42-48 | landing page plus SEO totals 400; adding multi-language gives 800; then dropping SEO gives 700 |
| Scenarios.DropSeoTotal | components/project-quoter.tsx:114-120 | dropping SEO from landing page, SEO and multi-language keeps multi-language only, at 700 |
| Scenarios.SwitchToAppScenario | components/project-quoter.tsx:104-108 | switching from a priced web selection to the app category clears everything and the total is 0 |
| Scenarios.WebLandingMessage | components/project-quoter.tsx:128-135 | the landing page plus SEO message names both and quotes $400 |
| Scenarios.ComplexAppTotal | components/project-quoter.tsx:68-76 | a complex app with login and push notifications totals 67300 |
| Scenarios.ComplexAppMessage | components/project-quoter.tsx:128-135 | its message joins both extras with " y " and quotes $67,300 |
| Scenarios.ComplexAppIsReachable | components/project-quoter.tsx:199-238 | that selection is reached by offered clicks from the initial state, so it is consistent |
| Scenarios.ForeignIdsTotal | components/project-quoter.tsx:110-112 | an app option and an app extra chosen under web are stored and price at 0 |
| Scenarios.ForeignIdsMessage | components/project-quoter.tsx:128-129 | that selection's message names the option undefined and has no extras clause |

## Left out

- The percent-encoding of the message, the opening of the `wa.me` link, and
  the toast shown on a refused send (lines 124, 137-138). These are a library
  call and browser side effects. The model stops at the message text, before
  encoding.
- `toLocaleString` (line 135) depends on the runtime locale. `Send` takes the
  rendering as a parameter `render: int -> string`. `Rendering.LocaleString`
  is one concrete rendering: it groups every three digits with a separator
  given as a parameter. Locales that leave four-digit numbers ungrouped, or
  use other digit shapes, are not modelled.
- React state and re-render mechanics (`useState`, `useMemo`) become pure
  transition functions over an immutable `Selection`.
- View-only catalog fields (icon, title, option description) and all layout.
- Nothing in `app/page.tsx`, `app/layout.tsx` or `app/actions.ts` is modelled:
  the contact form relay, the email sender, animations and metadata. These
  are network I/O, third-party SDK calls, or markup with no logic.
- Prices are unbounded integers. JavaScript numbers are doubles, but every
  catalog total is far below 2^53, so they stay exact.

=== FILE: catalog.dfy ===
/**
 * The static pricing catalog of the project quoter: three service
 * categories, each with mutually exclusive base options and independently
 * toggleable extras, and the `find`-by-id lookups the quoter performs on it.
 */
module Catalog {
  import opened Wrappers

  /** The closed set of category tags. */
  datatype CategoryId = Web | Ecommerce | App

  /**
   * A priced catalog entry. Base options and extras have the same shape once
   * the view-only description text is dropped, so one datatype serves both.
   */
  datatype Item = Item(id: string, name: string, price: int)

  /** A service category with its ordered options and ordered extras. */
  datatype Category = Category(id: CategoryId, options: seq<Item>, extras: seq<Item>)

  /** The catalog exactly as the quoter defines it, in display order. */
  const CATALOG: seq<Category> := [
    Category(Web,
      [ Item("landing", "Landing Page", 300),
        Item("institutional", "Web Institucional", 1200),
        Item("corporate", "Web Corporativa Pro", 3500) ],
      [ Item("seo", "SEO Básico", 100),
        Item("multilanguage", "Multi-idioma", 400) ]),
    Category(Ecommerce,
      [ Item("shopify", "Tienda en Shopify", 600),
        Item("woocommerce", "Tienda en WooCommerce", 2200) ],
      [ Item("products", "Carga de >50 productos", 300),
        Item("payments", "Integración Pasarela de Pagos", 400) ]),
    Category(App,
      [ Item("mvp", "MVP/App Simple", 6500),
        Item("moderate", "App Moderada con Backend", 25000),
        Item("complex", "App Compleja", 65000) ],
      [ Item("login", "Sistema de Login/Perfiles", 1500),
        Item("notifications", "Notificaciones Push/GPS", 800) ])
  ]

  /** `k` is the position of the first entry of `items` whose id is `id`. */
  ghost predicate FirstMatch(items: seq<Item>, id: string, k: int)
  {
    && 0 <= k < |items|
    && items[k].id == id
    && forall j :: 0 <= j < k ==> items[j].id != id
  }

  /** The position at which `items.find(it => it.id === id)` stops: the first entry carrying `id`. */
  function FindIndex(items: seq<Item>, id: string): (k: Option<nat>)
    ensures k.None? <==> forall i :: 0 <= i < |items| ==> items[i].id != id
    ensures k.Some? ==> FirstMatch(items, id, k.value)
  {
    if |items| == 0 then None
    else if items[0].id == id then Some(0)
    else
      match FindIndex(items[1..], id)
      case None => None
      case Some(j) => Some(j + 1)
  }

  /** `items.find(it => it.id === id)`: the first entry carrying `id`, if any. */
  function FindItem(items: seq<Item>, id: string): (r: Option<Item>)
    ensures r.None? <==> forall i :: 0 <= i < |items| ==> items[i].id != id
    ensures r.Some? ==> exists k :: FirstMatch(items, id, k) && items[k] == r.value
  {
    match FindIndex(items, id)
    case None => None
    case Some(k) => Some(items[k])
  }

  /** No two entries of `items` share an id. */
  predicate DistinctIds(items: seq<Item>)
  {
    forall i, j :: 0 <= i < j < |items| ==> items[i].id != items[j].id
  }

  /** Every entry of `items` has a non-negative price. */
  predicate NonNegativePrices(items: seq<Item>)
  {
    forall i :: 0 <= i < |items| ==> items[i].price >= 0
  }

  /** Every entry of `items` has a non-empty display name. */
  predicate LabelledItems(items: seq<Item>)
  {
    forall i :: 0 <= i < |items| ==> items[i].name != ""
  }

  /**
   * A category the quoter can work with: ids unique within each list, prices
   * non-negative, display names non-empty, and no option using the empty id that the
   * selection reserves for "no option chosen".
   */
  predicate WellFormedCategory(c: Category)
  {
    && DistinctIds(c.options) && DistinctIds(c.extras)
    && NonNegativePrices(c.options) && NonNegativePrices(c.extras)
    && LabelledItems(c.options) && LabelledItems(c.extras)
    && forall i :: 0 <= i < |c.options| ==> c.options[i].id != ""
  }

  /** Category tags are unique and every category is well formed. */
  predicate WellFormedCatalog(catalog: seq<Category>)
  {
    && (forall i, j :: 0 <= i < j < |catalog| ==> catalog[i].id != catalog[j].id)
    && (forall i :: 0 <= i < |catalog| ==> WellFormedCategory(catalog[i]))
  }

  /** With unique ids, looking up an entry's own id finds exactly that entry. */
  lemma {:induction false} FindDistinct(items: seq<Item>, i: int)
    requires DistinctIds(items)
    requires 0 <= i < |items|
    ensures FindItem(items, items[i].id) == Some(items[i])
  {
    var r := FindItem(items, items[i].id);
    assert r.Some?;
    var k :| FirstMatch(items, items[i].id, k) && items[k] == r.value;
    assert k == i;
  }

  /** With unique ids, the lookup of `id` finds every entry carrying `id`, i.e. the only one. */
  lemma FindEachDistinct(items: seq<Item>, id: string)
    ensures DistinctIds(items) ==>
      forall i :: 0 <= i < |items| && items[i].id == id ==> FindItem(items, id) == Some(items[i])
  {
    if DistinctIds(items) {
      forall i | 0 <= i < |items| && items[i].id == id
        ensures FindItem(items, id) == Some(items[i])
      {
        FindDistinct(items, i);
      }
    }
  }

  /** `CATALOG.find(c => c.id === id)`: the category carrying tag `id`, if any. */
  function FindCategory(catalog: seq<Category>, id: CategoryId): (r: Option<Category>)
    ensures r.None? <==> forall i :: 0 <= i < |catalog| ==> catalog[i].id != id
    ensures r.Some? ==> r.value in catalog && r.value.id == id
  {
    if |catalog| == 0 then None
    else if catalog[0].id == id then Some(catalog[0])
    else FindCategory(catalog[1..], id)
  }

  /** The web category is well formed. */
  lemma WebIsWellFormed()
    ensures WellFormedCategory(CATALOG[0])
  {
  }

  /** The e-commerce category is well formed. */
  lemma EcommerceIsWellFormed()
    ensures WellFormedCategory(CATALOG[1])
  {
  }

  /** The app category is well formed. */
  lemma AppIsWellFormed()
    ensures WellFormedCategory(CATALOG[2])
  {
  }

  /** Each category of the catalog as defined is well formed. */
  lemma CategoriesAreWellFormed()
    ensures WellFormedCategory(CATALOG[0])
    ensures WellFormedCategory(CATALOG[1])
    ensures WellFormedCategory(CATALOG[2])
  {
    WebIsWellFormed();
    EcommerceIsWellFormed();
    AppIsWellFormed();
  }

  /** The catalog as defined is well formed and lists the web category first. */
  lemma CatalogIsWellFormed()
    ensures WellFormedCatalog(CATALOG)
    ensures CATALOG[0].id == Web
  {
    CategoriesAreWellFormed();
  }

  /** Every tag resolves in the catalog, so the non-null assertion on the lookup never fails. */
  lemma CatalogCoversEveryId(id: CategoryId)
    ensures FindCategory(CATALOG, id).Some?
  {
    match id
    case Web => assert CATALOG[0].id == id;
    case Ecommerce => assert CATALOG[1].id == id;
    case App => assert CATALOG[2].id == id;
  }

  /** The active category record: the catalog entry for tag `id`. */
  function CurrentCategory(id: CategoryId): (c: Category)
    ensures c in CATALOG && c.id == id
    ensures WellFormedCategory(c)
  {
    CatalogCoversEveryId(id);
    CatalogIsWellFormed();
    FindCategory(CATALOG, id).value
  }
}

=== FILE: outreach.dfy ===
/**
 * The outreach message built when the visitor sends the quote to an adviser:
 * refused while no option is chosen, otherwise a greeting, the option's name,
 * an optional clause naming the extras, and the budget sentence.
 */
module Outreach {
  import opened Wrappers
  import opened Catalog
  import opened QuoteState
  import opened Pricing

  const GREETING := "Hola ErikaRTech, me interesa una "
  const CONNECTOR := " con "
  const SEPARATOR := " y "
  const BUDGET_PREFIX := ". El presupuesto estimado es de $"
  const BUDGET_SUFFIX := " USD. ¿Podemos hablar?"

  /** The one refusal: sending without a chosen option. */
  datatype SendError = NoOptionSelected

  /**
   * The send button is enabled exactly when an option is chosen; for a
   * consistent selection, exactly when the option resolves in its category.
   */
  predicate SendEnabled(s: Selection): (b: bool)
    ensures Consistent(s) ==> (b <==> FindItem(CurrentCategory(s.category).options, s.option).Some?)
  {
    s.option != ""
  }

  /**
   * The option's name as the template literal renders it: the first matching
   * option's name, or the text "undefined" when the id does not resolve.
   */
  function OptionName(options: seq<Item>, id: string): (r: string)
    ensures (forall i :: 0 <= i < |options| ==> options[i].id != id) ==> r == "undefined"
    ensures DistinctIds(options) ==> forall i :: 0 <= i < |options| && options[i].id == id ==> r == options[i].name
  {
    FindEachDistinct(options, id);
    match FindItem(options, id)
    case Some(it) => it.name
    case None => "undefined"
  }

  /**
   * An extra's name as `Array.join` renders it: the first matching extra's
   * name, or the empty text when the id does not resolve.
   */
  function ExtraName(extras: seq<Item>, id: string): (r: string)
    ensures (forall i :: 0 <= i < |extras| ==> extras[i].id != id) ==> r == ""
    ensures DistinctIds(extras) ==> forall i :: 0 <= i < |extras| && extras[i].id == id ==> r == extras[i].name
    ensures LabelledItems(extras) && FindItem(extras, id).Some? ==> r != ""
  {
    FindEachDistinct(extras, id);
    match FindItem(extras, id)
    case Some(it) => it.name
    case None => ""
  }

  /** The names of the chosen extras, in the order they were chosen. */
  function ExtraNames(extras: seq<Item>, ids: seq<string>): (r: seq<string>)
    ensures |r| == |ids|
    ensures forall i :: 0 <= i < |ids| ==> r[i] == ExtraName(extras, ids[i])
  {
    seq(|ids|, i requires 0 <= i < |ids| => ExtraName(extras, ids[i]))
  }

  /** `parts.join(sep)`: the parts in order, with `sep` between neighbours. */
  function Join(parts: seq<string>, sep: string): (r: string)
    ensures |parts| == 0 ==> r == ""
    ensures |parts| == 1 ==> r == parts[0]
    ensures |parts| > 0 ==> |parts[0]| <= |r| && r[..|parts[0]|] == parts[0]
    ensures |parts| > 0 ==> var last := parts[|parts| - 1];
      |last| <= |r| && r[|r| - |last|..] == last
    decreases |parts|
  {
    if |parts| == 0 then ""
    else if |parts| == 1 then parts[0]
    else parts[0] + sep + Join(parts[1..], sep)
  }

  /** With a non-empty separator the join is empty exactly for no parts or one empty part. */
  lemma {:induction false} JoinEmptyIff(parts: seq<string>, sep: string)
    requires sep != ""
    ensures Join(parts, sep) == "" <==> |parts| == 0 || (|parts| == 1 && parts[0] == "")
  {
    if |parts| >= 2 {
      assert |Join(parts, sep)| >= |sep| > 0;
    }
  }

  /** Joining one more part adds the separator and that part at the end. */
  lemma {:induction false} JoinSnoc(parts: seq<string>, p: string, sep: string)
    requires |parts| > 0
    ensures Join(parts + [p], sep) == Join(parts, sep) + sep + p
    decreases |parts|
  {
    if |parts| > 1 {
      assert (parts + [p])[1..] == parts[1..] + [p];
      JoinSnoc(parts[1..], p, sep);
    }
  }

  /** The " con ..." clause, present only when the joined names are non-empty. */
  function ExtrasClause(joined: string): (r: string)
    ensures r == "" <==> joined == ""
    ensures joined != "" ==> |CONNECTOR| <= |r| && r[..|CONNECTOR|] == CONNECTOR && r[|CONNECTOR|..] == joined
  {
    if joined == "" then "" else CONNECTOR + joined
  }

  /**
   * The message text before percent-encoding, for an option and extras
   * looked up in category `cat` and an already rendered total.
   */
  function Message(cat: Category, option: string, extras: seq<string>, total: string): (r: string)
    ensures var head := GREETING + OptionName(cat.options, option);
      var tail := BUDGET_PREFIX + total + BUDGET_SUFFIX;
      && |head| + |tail| <= |r|
      && r[..|head|] == head
      && r[|r| - |tail|..] == tail
  {
    var head := GREETING + OptionName(cat.options, option);
    var clause := ExtrasClause(Join(ExtraNames(cat.extras, extras), SEPARATOR));
    var tail := BUDGET_PREFIX + total + BUDGET_SUFFIX;
    Affixes(head, clause, tail);
    head + clause + tail
  }

  /**
   * `handleWhatsAppClick` up to the encoding: refused while no option is
   * chosen; otherwise the message opens with the greeting and the option's
   * name and closes with the budget sentence carrying the rendered total.
   */
  function Send(s: Selection, render: int -> string): (r: Result<string, SendError>)
    ensures r.Err? <==> !SendEnabled(s)
    ensures r.Err? ==> r.error == NoOptionSelected
    ensures r.Ok? ==>
      var head := GREETING + OptionName(CurrentCategory(s.category).options, s.option);
      var tail := BUDGET_PREFIX + render(Total(s)) + BUDGET_SUFFIX;
      && |head| + |tail| <= |r.value|
      && r.value[..|head|] == head
      && r.value[|r.value| - |tail|..] == tail
  {
    if s.option == "" then Err(NoOptionSelected)
    else
      var cat := CurrentCategory(s.category);
      Ok(Message(cat, s.option, s.extras, render(Total(s))))
  }

  /** A concatenation of three texts starts with the first and ends with the last. */
  lemma Affixes(a: string, b: string, c: string)
    ensures |a| + |c| <= |a + b + c|
    ensures (a + b + c)[..|a|] == a
    ensures (a + b + c)[|a + b + c| - |c|..] == c
  {
  }

  /** Sending is refused for every category and every extras list while no option is chosen. */
  lemma SendRefusedWithoutOption(c: CategoryId, extras: seq<string>, render: int -> string)
    ensures Send(Selection(c, "", extras), render) == Err(NoOptionSelected)
  {
  }

  /** With no extras chosen, the message has no " con " clause. */
  lemma MessageWithoutExtras(cat: Category, option: string, total: string)
    ensures Message(cat, option, [], total)
      == GREETING + OptionName(cat.options, option) + (BUDGET_PREFIX + total + BUDGET_SUFFIX)
  {
    assert ExtraNames(cat.extras, []) == [];
    var head := GREETING + OptionName(cat.options, option);
    assert head + "" == head;
  }

  /**
   * When every chosen extra resolves in a well-formed category, the " con "
   * clause is present exactly when extras are chosen, and it lists their
   * names joined by " y ".
   */
  lemma ClauseIffExtras(cat: Category, extras: seq<string>)
    requires WellFormedCategory(cat)
    requires forall i :: 0 <= i < |extras| ==> FindItem(cat.extras, extras[i]).Some?
    ensures var joined := Join(ExtraNames(cat.extras, extras), SEPARATOR);
      && (ExtrasClause(joined) != "" <==> extras != [])
      && (extras != [] ==> ExtrasClause(joined) == CONNECTOR + joined)
  {
    var names := ExtraNames(cat.extras, extras);
    JoinEmptyIff(names, SEPARATOR);
    if |extras| > 0 {
      assert FindItem(cat.extras, extras[0]).Some?;
      assert names[0] != "";
    }
  }

  /**
   * The full message of a reachable selection with a chosen option: greeting,
   * option name, the clause exactly when extras are chosen, budget sentence.
   */
  lemma MessageShape(s: Selection, render: int -> string)
    requires Consistent(s) && SendEnabled(s)
    ensures var cat := CurrentCategory(s.category);
      var names := ExtraNames(cat.extras, s.extras);
      Send(s, render) == Ok(GREETING + OptionName(cat.options, s.option)
        + (if s.extras == [] then "" else CONNECTOR + Join(names, SEPARATOR))
        + (BUDGET_PREFIX + render(Total(s)) + BUDGET_SUFFIX))
  {
    ClauseIffExtras(CurrentCategory(s.category), s.extras);
  }
}

=== FILE: pricing.dfy ===
/**
 * The quote total: the chosen option's price plus the prices of the chosen
 * extras, every id looked up in the active category, and ids that do not
 * resolve contributing nothing.
 */
module Pricing {
  import opened Wrappers
  import opened Catalog
  import opened QuoteState

  /** The price an id contributes: that of the first entry carrying it, or 0 when none does. */
  function PriceOf(items: seq<Item>, id: string): (p: int)
    ensures (forall i :: 0 <= i < |items| ==> items[i].id != id) ==> p == 0
    ensures NonNegativePrices(items) ==> p >= 0
    ensures DistinctIds(items) ==> forall i :: 0 <= i < |items| && items[i].id == id ==> p == items[i].price
  {
    match FindItem(items, id)
    case None => 0
    case Some(it) =>
      FindEachDistinct(items, id);
      it.price
  }

  /** The `forEach` accumulation over the chosen extras, in list order. */
  function SumExtras(items: seq<Item>, ids: seq<string>): (t: int)
    ensures NonNegativePrices(items) ==> t >= 0
    decreases |ids|
  {
    if |ids| == 0 then 0 else PriceOf(items, ids[0]) + SumExtras(items, ids[1..])
  }

  /** `calculateTotal` for a given category record. */
  function QuoteTotal(cat: Category, option: string, extras: seq<string>): (t: int)
    ensures WellFormedCategory(cat) ==> t >= 0
  {
    PriceOf(cat.options, option) + SumExtras(cat.extras, extras)
  }

  /** The total shown for a selection, priced against its active category. */
  function Total(s: Selection): (t: int)
    ensures t >= 0
  {
    QuoteTotal(CurrentCategory(s.category), s.option, s.extras)
  }

  /**
   * Reference definition: each catalog entry's price weighted by how many
   * times its id was chosen. It does not depend on the order of the choices.
   */
  function WeightedSum(items: seq<Item>, chosen: multiset<string>): int
    decreases |items|
  {
    if |items| == 0 then 0
    else items[0].price * chosen[items[0].id] + WeightedSum(items[1..], chosen)
  }

  /** With nothing chosen, the weighted sum is 0. */
  lemma {:induction false} WeightedSumOfNothing(items: seq<Item>)
    ensures WeightedSum(items, multiset{}) == 0
  {
    if |items| > 0 {
      WeightedSumOfNothing(items[1..]);
    }
  }

  /** Looking an id up past the first entry, when the first entry does not carry it. */
  lemma PriceOfTail(items: seq<Item>, id: string)
    requires DistinctIds(items) && |items| > 0
    ensures PriceOf(items, id) == if items[0].id == id then items[0].price else PriceOf(items[1..], id)
  {
    var rest := items[1..];
    assert DistinctIds(rest);
    if items[0].id == id {
    } else if i :| 0 <= i < |rest| && rest[i].id == id {
      assert items[i + 1] == rest[i];
    } else {
      forall i | 0 <= i < |items|
        ensures items[i].id != id
      {
        if i > 0 {
          assert items[i] == rest[i - 1];
        }
      }
    }
  }

  /**
   * Changing how often one id is chosen changes the weighted sum by that
   * change times the id's price (0 when the id does not resolve).
   */
  lemma {:induction false} WeightedSumPoint(items: seq<Item>, m: multiset<string>, m': multiset<string>, x: string)
    requires DistinctIds(items)
    requires forall y :: y != x ==> m[y] == m'[y]
    ensures WeightedSum(items, m') == WeightedSum(items, m) + (m'[x] - m[x]) * PriceOf(items, x)
    decreases |items|
  {
    if |items| > 0 {
      var h := items[0];
      var rest := items[1..];
      assert DistinctIds(rest);
      WeightedSumPoint(rest, m, m', x);
      PriceOfTail(items, x);
      if h.id == x {
        forall i | 0 <= i < |rest|
          ensures rest[i].id != x
        {
          assert rest[i] == items[i + 1];
        }
        assert PriceOf(rest, x) == 0;
        assert h.price * m'[x] == h.price * m[x] + (m'[x] - m[x]) * h.price;
      } else {
        assert m[h.id] == m'[h.id];
      }
    }
  }

  /** The accumulated sum over the chosen list equals the order-free weighted sum. */
  lemma {:induction false} SumExtrasIsWeightedSum(items: seq<Item>, ids: seq<string>)
    requires DistinctIds(items)
    ensures SumExtras(items, ids) == WeightedSum(items, multiset(ids))
    decreases |ids|
  {
    if |ids| == 0 {
      WeightedSumOfNothing(items);
    } else {
      var x, rest := ids[0], ids[1..];
      SumExtrasIsWeightedSum(items, rest);
      assert ids == [x] + rest;
      var m, m' := multiset(rest), multiset(ids);
      assert m' == m + multiset{x};
      assert m'[x] - m[x] == 1;
      WeightedSumPoint(items, m, m', x);
    }
  }

  /** The total depends only on which extras are chosen (and how often), not on toggle order. */
  lemma TotalIgnoresOrder(s: Selection, t: Selection)
    requires s.category == t.category && s.option == t.option
    requires multiset(s.extras) == multiset(t.extras)
    ensures Total(s) == Total(t)
  {
    var cat := CurrentCategory(s.category);
    SumExtrasIsWeightedSum(cat.extras, s.extras);
    SumExtrasIsWeightedSum(cat.extras, t.extras);
  }

  /**
   * The total is the option's price plus, for every extra of the active
   * category, its price times the number of times it was chosen.
   */
  lemma TotalIsExactSum(s: Selection)
    ensures var cat := CurrentCategory(s.category);
      Total(s) == PriceOf(cat.options, s.option) + WeightedSum(cat.extras, multiset(s.extras))
  {
    SumExtrasIsWeightedSum(CurrentCategory(s.category).extras, s.extras);
  }

  /** The initial total is 0. */
  lemma InitialTotalIsZero()
    ensures Total(INITIAL) == 0
  {
  }

  /** Right after any category change the total is 0. */
  lemma TotalAfterCategoryChange(s: Selection, c: CategoryId)
    ensures Total(ChangeCategory(s, c)) == 0
  {
  }

  /** With no extras, choosing an option of the active category makes the total that option's price. */
  lemma TotalOfOptionAlone(s: Selection, i: int)
    requires s.extras == []
    requires 0 <= i < |CurrentCategory(s.category).options|
    ensures Total(ChooseOption(s, CurrentCategory(s.category).options[i].id))
      == CurrentCategory(s.category).options[i].price
  {
  }

  /** Two choice lists differing only in how often `id` occurs differ in sum by that many times its price. */
  lemma SumShift(items: seq<Item>, xs: seq<string>, ys: seq<string>, id: string)
    requires DistinctIds(items)
    requires forall y :: y != id ==> multiset(xs)[y] == multiset(ys)[y]
    ensures SumExtras(items, ys)
      == SumExtras(items, xs) + (multiset(ys)[id] - multiset(xs)[id]) * PriceOf(items, id)
  {
    SumExtrasIsWeightedSum(items, xs);
    SumExtrasIsWeightedSum(items, ys);
    WeightedSumPoint(items, multiset(xs), multiset(ys), id);
  }

  /** Toggling an id on a duplicate-free list moves the sum by exactly that id's price. */
  lemma SumAfterToggle(items: seq<Item>, xs: seq<string>, id: string)
    requires DistinctIds(items) && NoDuplicates(xs)
    ensures var p := PriceOf(items, id);
      SumExtras(items, Toggle(xs, id)) == if id in xs then SumExtras(items, xs) - p else SumExtras(items, xs) + p
  {
    var r := Toggle(xs, id);
    SumShift(items, xs, r, id);
    NoDuplicatesCount(xs, id);
    NoDuplicatesCount(r, id);
  }

  /**
   * On a duplicate-free list, toggling an extra on adds its price and toggling
   * it off subtracts it; an id that does not resolve changes nothing.
   */
  lemma TotalAfterToggle(s: Selection, id: string)
    requires NoDuplicates(s.extras)
    ensures var p := PriceOf(CurrentCategory(s.category).extras, id);
      Total(ToggleExtra(s, id)) == if id in s.extras then Total(s) - p else Total(s) + p
  {
    SumAfterToggle(CurrentCategory(s.category).extras, s.extras, id);
  }

  /** Toggling an extra twice restores the total, even when the list order changes. */
  lemma TotalAfterToggleTwice(s: Selection, id: string)
    requires NoDuplicates(s.extras)
    ensures Total(ToggleExtra(ToggleExtra(s, id), id)) == Total(s)
  {
    ToggleTwiceSameIds(s.extras, id);
    TotalIgnoresOrder(ToggleExtra(ToggleExtra(s, id), id), s);
  }
}

=== FILE: rendering.dfy ===
/**
 * Rendering of the total as decimal text with grouped thousands. The
 * runtime-locale `toLocaleString` is replaced by a rendering whose group
 * separator is a parameter.
 */
module Rendering {

  /** A decimal digit character. */
  predicate IsDigit(c: char)
  {
    '0' <= c <= '9'
  }

  /** The character of digit `d`. */
  function DigitChar(d: int): (c: char)
    requires 0 <= d < 10
    ensures IsDigit(c)
  {
    (48 + d) as char
  }

  /** The value of a digit character. */
  function DigitValue(c: char): (d: int)
    requires IsDigit(c)
    ensures 0 <= d < 10 && DigitChar(d) == c
  {
    c as int - 48
  }

  /** Every character of `s` is a digit. */
  predicate AllDigits(s: string)
  {
    forall i :: 0 <= i < |s| ==> IsDigit(s[i])
  }

  /** The shortest decimal numeral of `n`, without separators. */
  function Decimal(n: nat): (s: string)
    ensures |s| > 0 && AllDigits(s)
    ensures n > 0 ==> s[0] != '0'
    decreases n
  {
    if n < 10 then [DigitChar(n)] else Decimal(n / 10) + [DigitChar(n % 10)]
  }

  /** The value a numeral denotes. */
  function ParseDecimal(s: string): nat
    requires AllDigits(s)
    decreases |s|
  {
    if |s| == 0 then 0 else 10 * ParseDecimal(s[..|s| - 1]) + DigitValue(s[|s| - 1])
  }

  /** Reading the numeral of `n` gives back `n`. */
  lemma {:induction false} DecimalRoundTrip(n: nat)
    ensures ParseDecimal(Decimal(n)) == n
    decreases n
  {
    var s := Decimal(n);
    if n >= 10 {
      DecimalRoundTrip(n / 10);
      assert s[..|s| - 1] == Decimal(n / 10);
    }
  }

  /** The three digits of a group below one thousand, with leading zeros. */
  function Pad3(k: nat): (s: string)
    requires k < 1000
    ensures |s| == 3 && AllDigits(s)
  {
    [DigitChar(k / 100), DigitChar(k / 10 % 10), DigitChar(k % 10)]
  }

  /** The numeral of `n` splits into that of `n / 1000` and the padded last group. */
  lemma DecimalSplit(n: nat)
    requires n >= 1000
    ensures Decimal(n) == Decimal(n / 1000) + Pad3(n % 1000)
  {
    var q, k := n / 1000, n % 1000;
    assert n == 1000 * q + k;
    assert n / 10 == 100 * q + k / 10;
    assert n / 100 == 10 * q + k / 100;
    assert n / 10 / 10 == n / 100;
    assert n / 100 / 10 == q;
    assert n % 10 == k % 10;
    assert n / 10 % 10 == k / 10 % 10;
    assert n / 100 % 10 == k / 100;
    assert Decimal(n) == Decimal(n / 10) + [DigitChar(n % 10)];
    assert Decimal(n / 10) == Decimal(n / 100) + [DigitChar(n / 10 % 10)];
    assert Decimal(n / 100) == Decimal(q) + [DigitChar(n / 100 % 10)];
  }

  /**
   * Reference for grouping: the digit string `s` with `sep` inserted before
   * every block of three characters counted from the right, except at the front.
   */
  function Insert3(s: string, sep: string): string
    decreases |s|
  {
    if |s| <= 3 then s else Insert3(s[..|s| - 3], sep) + sep + s[|s| - 3..]
  }

  /** A number below one thousand has at most three digits. */
  lemma DecimalShort(n: nat)
    requires n < 1000
    ensures |Decimal(n)| <= 3
  {
    if n >= 10 {
      assert |Decimal(n)| == |Decimal(n / 10)| + 1;
      if n >= 100 {
        assert |Decimal(n / 10)| == |Decimal(n / 100)| + 1;
      }
    }
  }

  /** `n` with a separator between every group of three digits, counted from the right. */
  function GroupThousands(n: nat, sep: string): (r: string)
    ensures |r| > 0 && IsDigit(r[0])
    ensures r == Insert3(Decimal(n), sep)
    ensures sep == [] ==> r == Decimal(n)
    decreases n
  {
    if n < 1000 then
      DecimalShort(n);
      Decimal(n)
    else
      var head := GroupThousands(n / 1000, sep);
      var d := Decimal(n);
      DecimalSplit(n);
      assert d[..|d| - 3] == Decimal(n / 1000) && d[|d| - 3..] == Pad3(n % 1000);
      head + sep + Pad3(n % 1000)
  }

  /** `s` with every occurrence of `c` deleted. */
  function Strip(s: string, c: char): (r: string)
    ensures c !in r
    decreases |s|
  {
    if |s| == 0 then []
    else if s[|s| - 1] == c then Strip(s[..|s| - 1], c)
    else Strip(s[..|s| - 1], c) + [s[|s| - 1]]
  }

  /** Deleting a character distributes over concatenation. */
  lemma {:induction false} StripConcat(a: string, b: string, c: char)
    ensures Strip(a + b, c) == Strip(a, c) + Strip(b, c)
    decreases |b|
  {
    if |b| > 0 {
      assert (a + b)[..|a + b| - 1] == a + b[..|b| - 1];
      StripConcat(a, b[..|b| - 1], c);
    } else {
      assert a + b == a;
    }
  }

  /** Deleting a non-digit from a numeral changes nothing. */
  lemma {:induction false} StripDigits(s: string, c: char)
    requires AllDigits(s) && !IsDigit(c)
    ensures Strip(s, c) == s
    decreases |s|
  {
    if |s| > 0 {
      StripDigits(s[..|s| - 1], c);
      assert s == s[..|s| - 1] + [s[|s| - 1]];
    }
  }

  /** Deleting a non-digit separator from the grouped numeral gives the plain numeral. */
  lemma {:induction false} UngroupIsDecimal(n: nat, c: char)
    requires !IsDigit(c)
    ensures Strip(GroupThousands(n, [c]), c) == Decimal(n)
    decreases n
  {
    if n < 1000 {
      StripDigits(Decimal(n), c);
    } else {
      var head, tail := GroupThousands(n / 1000, [c]), Pad3(n % 1000);
      UngroupIsDecimal(n / 1000, c);
      StripConcat(head + [c], tail, c);
      StripConcat(head, [c], c);
      StripDigits(tail, c);
      assert Strip([c], c) == [];
      DecimalSplit(n);
    }
  }

  /** The grouped rendering with a non-digit separator denotes exactly `n`. */
  lemma GroupingRoundTrip(n: nat, c: char)
    requires !IsDigit(c)
    ensures AllDigits(Strip(GroupThousands(n, [c]), c))
    ensures ParseDecimal(Strip(GroupThousands(n, [c]), c)) == n
  {
    UngroupIsDecimal(n, c);
    DecimalRoundTrip(n);
  }

  /**
   * The rendering of any integer total: a minus sign before the grouped
   * magnitude when negative. The first character tells the sign, and with a
   * single non-digit separator the rest reads back as the magnitude.
   */
  function LocaleString(n: int, sep: string): (r: string)
    ensures n >= 0 ==> r == Insert3(Decimal(n), sep)
    ensures n < 0 ==> r == "-" + Insert3(Decimal(-n), sep)
    ensures |r| > 0 && (r[0] == '-' <==> n < 0)
    ensures |sep| == 1 && !IsDigit(sep[0]) && n >= 0 ==>
      AllDigits(Strip(r, sep[0])) && ParseDecimal(Strip(r, sep[0])) == n
    ensures |sep| == 1 && !IsDigit(sep[0]) && n < 0 ==>
      AllDigits(Strip(r[1..], sep[0])) && ParseDecimal(Strip(r[1..], sep[0])) == -n
  {
    var m: nat := if n < 0 then -n else n;
    var digits := GroupThousands(m, sep);
    var r := if n < 0 then "-" + digits else digits;
    if |sep| == 1 && !IsDigit(sep[0]) then
      assert sep == [sep[0]];
      GroupingRoundTrip(m, sep[0]);
      assert n < 0 ==> r[1..] == digits;
      r
    else
      r
  }

  /** Sample renderings with a comma as the group separator. */
  lemma GroupingExamples()
    ensures GroupThousands(0, ",") == "0"
    ensures GroupThousands(400, ",") == "400"
    ensures GroupThousands(65000, ",") == "65,000"
  {
    assert Decimal(65) == "65";
    assert Pad3(0) == "000";
  }

  /** A sample rendering with a dot as the group separator. */
  lemma DotGroupingExample()
    ensures GroupThousands(6500, ".") == "6.500"
  {
    assert Decimal(6) == "6";
    assert Pad3(500) == "500";
  }
}

=== FILE: scenarios.dfy ===
/** Concrete walks through the quoter against the catalog as defined. */
module Scenarios {
  import opened Wrappers
  import opened Catalog
  import opened QuoteState
  import opened Pricing
  import opened Rendering
  import opened Outreach

  /** Comma-grouped rendering of the total. */
  function Commas(n: int): string
  {
    LocaleString(n, ",")
  }

  /** Prices and names of the web entries the scenarios use. */
  lemma WebEntries()
    ensures var web := CurrentCategory(Web);
      && PriceOf(web.options, "landing") == 300
      && PriceOf(web.extras, "seo") == 100
      && PriceOf(web.extras, "multilanguage") == 400
      && OptionName(web.options, "landing") == "Landing Page"
      && ExtraName(web.extras, "seo") == "SEO Básico"
  {
    var web := CurrentCategory(Web);
    assert web == CATALOG[0];
    assert web.options[0].id == "landing";
    assert web.extras[0].id == "seo" && web.extras[1].id == "multilanguage";
  }

  /** Prices and names of the app entries the scenarios use. */
  lemma AppEntries()
    ensures var app := CurrentCategory(App);
      && PriceOf(app.options, "complex") == 65000
      && PriceOf(app.extras, "login") == 1500
      && PriceOf(app.extras, "notifications") == 800
      && OptionName(app.options, "complex") == "App Compleja"
      && ExtraName(app.extras, "login") == "Sistema de Login/Perfiles"
      && ExtraName(app.extras, "notifications") == "Notificaciones Push/GPS"
  {
    var app := CurrentCategory(App);
    assert app == CATALOG[2];
    assert app.options[2].id == "complex";
    assert app.extras[0].id == "login" && app.extras[1].id == "notifications";
  }

  /** Landing page with SEO. */
  function LandingSeo(): Selection
  {
    ToggleExtra(ChooseOption(INITIAL, "landing"), "seo")
  }

  /** Landing page plus SEO is 400. */
  lemma LandingSeoTotal()
    ensures Total(LandingSeo()) == 400
  {
  }

  /** Adding multi-language to landing page plus SEO gives 800. */
  lemma AddMultilanguageTotal()
    ensures Total(ToggleExtra(LandingSeo(), "multilanguage")) == 800
  {
  }

  /** Then dropping SEO keeps multi-language only and gives 700. */
  lemma DropSeoTotal()
    ensures ToggleExtra(ToggleExtra(LandingSeo(), "multilanguage"), "seo").extras == ["multilanguage"]
    ensures Total(ToggleExtra(ToggleExtra(LandingSeo(), "multilanguage"), "seo")) == 700
  {
  }

  /** Landing page plus SEO is 400; adding multi-language gives 800; dropping SEO gives 700. */
  lemma WebLandingScenario()
    ensures Total(LandingSeo()) == 400
    ensures Total(ToggleExtra(LandingSeo(), "multilanguage")) == 800
    ensures Total(ToggleExtra(ToggleExtra(LandingSeo(), "multilanguage"), "seo")) == 700
  {
    LandingSeoTotal();
    AddMultilanguageTotal();
    DropSeoTotal();
  }

  /** Switching from a priced web selection to the app category clears everything. */
  lemma SwitchToAppScenario()
    ensures ChangeCategory(LandingSeo(), App) == Selection(App, "", [])
    ensures Total(ChangeCategory(LandingSeo(), App)) == 0
  {
    TotalAfterCategoryChange(LandingSeo(), App);
  }

  /** Landing page plus SEO is what the view reaches by two clicks, so it is consistent. */
  lemma LandingSeoIsReachable()
    ensures Consistent(LandingSeo())
  {
    var events := [PickOption("landing"), ClickExtra("seo")];
    assert Offered(INITIAL, events[0]);
    assert Offered(Step(INITIAL, events[0]), events[1]);
    assert AllOffered(INITIAL, events);
    assert Run(INITIAL, events) == LandingSeo();
    InitialState();
    ReachableIsConsistent(INITIAL, events);
  }

  /** The name the landing page plus SEO message lists. */
  lemma LandingSeoNames()
    ensures LandingSeo() == Selection(Web, "landing", ["seo"])
    ensures Join(ExtraNames(CurrentCategory(Web).extras, LandingSeo().extras), SEPARATOR) == "SEO Básico"
  {
    WebEntries();
    assert ExtraNames(CurrentCategory(Web).extras, ["seo"]) == ["SEO Básico"];
  }

  /** A total below one thousand renders without a separator. */
  lemma CommasShort()
    ensures Commas(400) == "400"
  {
    assert Decimal(400) == Decimal(40) + "0" && Decimal(40) == "40";
    assert GroupThousands(400, ",") == "400";
  }

  /** The message for landing page plus SEO. */
  lemma WebLandingMessage()
    ensures Send(LandingSeo(), Commas)
      == Ok(GREETING + "Landing Page" + (CONNECTOR + "SEO Básico") + (BUDGET_PREFIX + "400" + BUDGET_SUFFIX))
  {
    var s := Selection(Web, "landing", ["seo"]);
    LandingSeoNames();
    LandingSeoTotal();
    LandingSeoIsReachable();
    WebEntries();
    CommasShort();
    MessageShape(s, Commas);
  }

  /** The complex app with both extras chosen. */
  function ComplexApp(): Selection
  {
    ToggleExtra(ToggleExtra(ChooseOption(Selection(App, "", []), "complex"), "login"), "notifications")
  }

  /** The four clicks that choose the complex app with both extras. */
  function ComplexAppClicks(): seq<Event>
  {
    [PickCategory(App), PickOption("complex"), ClickExtra("login"), ClickExtra("notifications")]
  }

  /** Those clicks reach the complex app selection. */
  lemma ComplexAppClicksReach()
    ensures Run(INITIAL, ComplexAppClicks()) == ComplexApp()
  {
    var events := ComplexAppClicks();
    var s1 := Selection(App, "", []);
    var s2 := Selection(App, "complex", []);
    assert Step(INITIAL, events[0]) == s1;
    assert Step(s1, events[1]) == s2;
    assert Run(s2, events[2..]) == ComplexApp();
  }

  /** Every one of those clicks is offered in the state it is applied to. */
  lemma ComplexAppClicksOffered()
    ensures AllOffered(INITIAL, ComplexAppClicks())
  {
    var events := ComplexAppClicks();
    var app := CurrentCategory(App);
    assert app == CATALOG[2];
    assert app.options[2].id == "complex";
    assert app.extras[0].id == "login" && app.extras[1].id == "notifications";
    var s1 := Selection(App, "", []);
    var s2 := Selection(App, "complex", []);
    var s3 := Selection(App, "complex", ["login"]);
    assert Offered(s3, events[3]);
    assert Offered(s2, events[2]);
    assert Offered(s1, events[1]);
    assert Step(s2, events[2]) == s3;
    assert AllOffered(s2, events[2..]);
  }

  /** The complex app selection is what the view reaches by four clicks, so it is consistent. */
  lemma ComplexAppIsReachable()
    ensures Consistent(ComplexApp())
  {
    ComplexAppClicksReach();
    ComplexAppClicksOffered();
    InitialState();
    ReachableIsConsistent(INITIAL, ComplexAppClicks());
  }

  /** A complex app with both extras costs 65000 + 1500 + 800. */
  lemma ComplexAppTotal()
    ensures ComplexApp().extras == ["login", "notifications"]
    ensures Total(ComplexApp()) == 67300
  {
    assert Toggle(["login"], "notifications") == ["login", "notifications"];
    var s := Selection(App, "complex", ["login", "notifications"]);
    assert ComplexApp() == s;
    AppEntries();
    assert SumExtras(CurrentCategory(App).extras, s.extras) == 1500 + 800;
  }

  /** The comma rendering of the complex app total. */
  lemma CommasExample()
    ensures Commas(67300) == "67,300"
  {
    assert Decimal(67) == "67";
    assert Pad3(300) == "300";
  }

  /** The names the complex app message lists. */
  lemma ComplexAppNames()
    ensures Join(ExtraNames(CurrentCategory(App).extras, ComplexApp().extras), SEPARATOR)
      == "Sistema de Login/Perfiles" + SEPARATOR + "Notificaciones Push/GPS"
  {
    var app := CurrentCategory(App);
    AppEntries();
    ComplexAppTotal();
    var names := ExtraNames(app.extras, ComplexApp().extras);
    assert names == ["Sistema de Login/Perfiles", "Notificaciones Push/GPS"];
    assert Join(names, SEPARATOR) == names[0] + SEPARATOR + Join(names[1..], SEPARATOR);
  }

  /** The message for a complex app with both extras, with a comma-grouped total. */
  lemma ComplexAppMessage()
    ensures Send(ComplexApp(), Commas)
      == Ok(GREETING + "App Compleja"
            + (CONNECTOR + ("Sistema de Login/Perfiles" + SEPARATOR + "Notificaciones Push/GPS"))
            + (BUDGET_PREFIX + "67,300" + BUDGET_SUFFIX))
  {
    var s := ComplexApp();
    assert s.option == "complex";
    AppEntries();
    ComplexAppIsReachable();
    ComplexAppTotal();
    ComplexAppNames();
    CommasExample();
    MessageShape(s, Commas);
  }

  /** An app option and an app extra chosen while the web category is active. */
  function ForeignIds(): Selection
  {
    ToggleExtra(ChooseOption(INITIAL, "mvp"), "login")
  }

  /**
   * Ids from another category are accepted but do not resolve: the option is
   * stored and priced at 0, and the extra is stored and adds nothing.
   */
  lemma ForeignIdsTotal()
    ensures ForeignIds().option == "mvp" && ForeignIds().extras == ["login"]
    ensures Total(ForeignIds()) == 0
  {
    var web := CurrentCategory(Web);
    assert web == CATALOG[0];
    assert PriceOf(web.options, "mvp") == 0;
    assert PriceOf(web.extras, "login") == 0;
  }

  /** The unresolved option is named "undefined" and the unresolved extra yields no clause. */
  lemma ForeignIdsMessage()
    ensures Send(ForeignIds(), Commas) == Ok(GREETING + "undefined" + "" + (BUDGET_PREFIX + "0" + BUDGET_SUFFIX))
  {
    var web := CurrentCategory(Web);
    assert web == CATALOG[0];
    ForeignIdsTotal();
    assert OptionName(web.options, "mvp") == "undefined";
    assert ExtraNames(web.extras, ["login"]) == [""];
    assert Join([""], SEPARATOR) == "";
    assert Commas(0) == "0";
  }
}

=== FILE: selection.dfy ===
/**
 * The quoter's selection state machine: the active category, at most one
 * chosen option (the empty id meaning none) and the ordered list of chosen
 * extras, together with the three transitions the view triggers.
 */
module QuoteState {
  import opened Wrappers
  import opened Catalog

  /** The selection state; `option == ""` means no option is chosen. */
  datatype Selection = Selection(category: CategoryId, option: string, extras: seq<string>)

  /** The state the quoter starts in: web category, nothing chosen. */
  const INITIAL: Selection := Selection(Web, "", [])

  // ---------------------------------------------------------------------------
  // List helpers for the extras list
  // ---------------------------------------------------------------------------

  /** No id occurs twice in `xs`. */
  predicate NoDuplicates(xs: seq<string>)
  {
    forall i, j :: 0 <= i < j < |xs| ==> xs[i] != xs[j]
  }

  /** `a` is obtained from `b` by deleting some entries, keeping the order of the rest. */
  ghost predicate IsSubsequence(a: seq<string>, b: seq<string>)
    decreases |b|
  {
    if |a| == 0 then true
    else if |b| == 0 then false
    else if a[0] == b[0] then IsSubsequence(a[1..], b[1..])
    else IsSubsequence(a, b[1..])
  }

  /** `xs.filter(x => x !== id)`: every occurrence of `id` removed, the rest kept in order. */
  function Without(xs: seq<string>, id: string): (r: seq<string>)
    ensures id !in r
    ensures forall y :: y != id ==> multiset(r)[y] == multiset(xs)[y]
    ensures IsSubsequence(r, xs)
    ensures |r| == |xs| - multiset(xs)[id]
  {
    if |xs| == 0 then []
    else
      assert xs == [xs[0]] + xs[1..];
      var rest := Without(xs[1..], id);
      if xs[0] == id then
        SubsequenceSkip(rest, xs);
        rest
      else
        [xs[0]] + rest
  }

  /** A subsequence of the tail whose head differs from the list's head is a subsequence of the list. */
  lemma {:induction false} SubsequenceSkip(a: seq<string>, b: seq<string>)
    requires |b| > 0
    requires IsSubsequence(a, b[1..])
    requires |a| > 0 ==> a[0] != b[0]
    ensures IsSubsequence(a, b)
  {
  }

  /** Removing an id that does not occur changes nothing. */
  lemma {:induction false} WithoutAbsent(xs: seq<string>, id: string)
    requires id !in xs
    ensures Without(xs, id) == xs
  {
    if |xs| > 0 {
      WithoutAbsent(xs[1..], id);
    }
  }

  /** Removal distributes over appending one element. */
  lemma {:induction false} WithoutAppend(xs: seq<string>, x: string, id: string)
    ensures Without(xs + [x], id) == Without(xs, id) + Without([x], id)
  {
    if |xs| > 0 {
      var ys := xs + [x];
      assert ys[0] == xs[0] && ys[1..] == xs[1..] + [x];
      WithoutAppend(xs[1..], x, id);
      if xs[0] == id {
        assert Without(ys, id) == Without(ys[1..], id);
        assert Without(xs, id) == Without(xs[1..], id);
      } else {
        assert Without(ys, id) == [xs[0]] + Without(ys[1..], id);
        assert Without(xs, id) == [xs[0]] + Without(xs[1..], id);
      }
    } else {
      assert xs + [x] == [x];
    }
  }

  /** In a duplicate-free list an id occurs at most once. */
  lemma {:induction false} NoDuplicatesCount(xs: seq<string>, id: string)
    requires NoDuplicates(xs)
    ensures multiset(xs)[id] == if id in xs then 1 else 0
  {
    if |xs| > 0 {
      assert xs == [xs[0]] + xs[1..];
      assert NoDuplicates(xs[1..]);
      NoDuplicatesCount(xs[1..], id);
      if xs[0] == id {
        assert id !in xs[1..];
      }
    }
  }

  /**
   * `prev.includes(id) ? prev.filter(x => x !== id) : [...prev, id]`: the
   * membership of `id` flips, every other id keeps its count, a removal keeps
   * the order of the remaining ids, an addition goes at the end, and a
   * duplicate-free list stays duplicate-free.
   */
  function Toggle(xs: seq<string>, id: string): (r: seq<string>)
    ensures id in r <==> id !in xs
    ensures forall y :: y != id ==> multiset(r)[y] == multiset(xs)[y]
    ensures id in xs ==> IsSubsequence(r, xs) && |r| < |xs|
    ensures id !in xs ==> |r| == |xs| + 1 && r[..|xs|] == xs && r[|xs|] == id
    ensures NoDuplicates(xs) ==> NoDuplicates(r)
  {
    if id in xs then
      var r := Without(xs, id);
      assert multiset(xs)[id] > 0;
      NoDuplicatesOfSubsequence(r, xs);
      r
    else
      xs + [id]
  }

  /** A subsequence of a duplicate-free list is duplicate-free. */
  lemma {:induction false} NoDuplicatesOfSubsequence(a: seq<string>, b: seq<string>)
    requires IsSubsequence(a, b)
    ensures NoDuplicates(b) ==> NoDuplicates(a)
    ensures forall y :: y in a ==> y in b
    decreases |b|
  {
    if |a| > 0 && |b| > 0 {
      assert NoDuplicates(b) ==> NoDuplicates(b[1..]);
      if a[0] == b[0] {
        NoDuplicatesOfSubsequence(a[1..], b[1..]);
        assert a == [a[0]] + a[1..];
        if NoDuplicates(b) {
          assert b == [b[0]] + b[1..];
          assert a[0] !in b[1..];
          forall i, j | 0 <= i < j < |a|
            ensures a[i] != a[j]
          {
            if i == 0 {
              assert a[j] == a[1..][j - 1];
            } else {
              assert a[i] == a[1..][i - 1] && a[j] == a[1..][j - 1];
            }
          }
        }
      } else {
        NoDuplicatesOfSubsequence(a, b[1..]);
      }
    }
  }

  // ---------------------------------------------------------------------------
  // Transitions
  // ---------------------------------------------------------------------------

  /** `handleCategoryChange`: switch category and clear the option and extras. */
  function ChangeCategory(s: Selection, c: CategoryId): (r: Selection)
    ensures r.category == c && r.option == "" && r.extras == []
    ensures Consistent(r)
  {
    Selection(c, "", [])
  }

  /** `handleOptionChange`: store the id as the chosen option, without validating it. */
  function ChooseOption(s: Selection, id: string): (r: Selection)
    ensures r.option == id && r.category == s.category && r.extras == s.extras
    ensures Consistent(s) && FindItem(CurrentCategory(s.category).options, id).Some? ==> Consistent(r)
  {
    s.(option := id)
  }

  /** `handleExtraToggle`: toggle the id in the extras list, without validating it. */
  function ToggleExtra(s: Selection, id: string): (r: Selection)
    ensures r.category == s.category && r.option == s.option
    ensures id in r.extras <==> id !in s.extras
    ensures forall x :: x != id ==> multiset(r.extras)[x] == multiset(s.extras)[x]
    ensures NoDuplicates(s.extras) ==> NoDuplicates(r.extras)
  {
    s.(extras := Toggle(s.extras, id))
  }

  /** A user action in the view. */
  datatype Event = PickCategory(c: CategoryId) | PickOption(id: string) | ClickExtra(id: string)

  /** The transition an event triggers. */
  function Step(s: Selection, e: Event): (r: Selection)
    ensures e.PickCategory? ==> r == Selection(e.c, "", [])
    ensures !e.PickCategory? ==> r.category == s.category
    ensures e.ClickExtra? ==> r.option == s.option
  {
    match e
    case PickCategory(c) => ChangeCategory(s, c)
    case PickOption(id) => ChooseOption(s, id)
    case ClickExtra(id) => ToggleExtra(s, id)
  }

  /** The state after a sequence of events, applied in order. */
  function Run(s: Selection, events: seq<Event>): (r: Selection)
    ensures |events| == 0 ==> r == s
    ensures |events| > 0 && events[|events| - 1].PickCategory? ==> r == Selection(events[|events| - 1].c, "", [])
    decreases |events|
  {
    if |events| == 0 then s
    else
      var rest := events[1..];
      assert |rest| > 0 ==> rest[|rest| - 1] == events[|events| - 1];
      Run(Step(s, events[0]), rest)
  }

  /** Running one more event applies it to the state the earlier events reached. */
  lemma {:induction false} RunSnoc(s: Selection, events: seq<Event>, e: Event)
    ensures Run(s, events + [e]) == Step(Run(s, events), e)
    decreases |events|
  {
    if |events| > 0 {
      assert (events + [e])[1..] == events[1..] + [e];
      RunSnoc(Step(s, events[0]), events[1..], e);
    }
  }

  /**
   * The view only renders the active category's option radio items and extra
   * checkboxes, so it can only emit ids that resolve in the active category.
   */
  predicate Offered(s: Selection, e: Event): (b: bool)
    ensures e.PickCategory? ==> b
    ensures b && e.PickOption? ==> e.id != ""
    ensures var cat := CurrentCategory(s.category);
      && (b && e.PickOption? ==> exists k :: 0 <= k < |cat.options| && cat.options[k].id == e.id)
      && (b && e.ClickExtra? ==> exists k :: 0 <= k < |cat.extras| && cat.extras[k].id == e.id)
    ensures var cat := CurrentCategory(s.category);
      && (e.PickOption? && (exists k :: 0 <= k < |cat.options| && cat.options[k].id == e.id) ==> b)
      && (e.ClickExtra? && (exists k :: 0 <= k < |cat.extras| && cat.extras[k].id == e.id) ==> b)
  {
    match e
    case PickCategory(_) => true
    case PickOption(id) => FindItem(CurrentCategory(s.category).options, id).Some?
    case ClickExtra(id) => FindItem(CurrentCategory(s.category).extras, id).Some?
  }

  /** Every event of the sequence is offered in the state it is applied to. */
  predicate AllOffered(s: Selection, events: seq<Event>)
    decreases |events|
  {
    |events| == 0 || (Offered(s, events[0]) && AllOffered(Step(s, events[0]), events[1..]))
  }

  /**
   * The selection refers only to category `cat`: the option is none or one
   * of its options, and the extras are distinct ids of its extras.
   */
  predicate ConsistentWith(cat: Category, s: Selection)
  {
    && (s.option == "" || FindItem(cat.options, s.option).Some?)
    && NoDuplicates(s.extras)
    && forall i :: 0 <= i < |s.extras| ==> FindItem(cat.extras, s.extras[i]).Some?
  }

  /** The selection refers only to its active category. */
  predicate Consistent(s: Selection)
  {
    ConsistentWith(CurrentCategory(s.category), s)
  }

  // ---------------------------------------------------------------------------
  // Properties of the transitions
  // ---------------------------------------------------------------------------

  /** The initial state is the catalog's first category with nothing chosen. */
  lemma InitialState()
    ensures INITIAL.category == CATALOG[0].id
    ensures INITIAL.option == "" && INITIAL.extras == []
    ensures Consistent(INITIAL)
  {
  }

  /** Changing category clears the option and the extras, whatever the prior state was. */
  lemma CategoryChangeResets(s: Selection, t: Selection, c: CategoryId)
    ensures ChangeCategory(s, c).category == c
    ensures ChangeCategory(s, c).option == "" && ChangeCategory(s, c).extras == []
    ensures ChangeCategory(s, c) == ChangeCategory(t, c)
  {
  }

  /** Choosing an option replaces the previous choice and leaves category and extras alone. */
  lemma ChooseOptionReplaces(s: Selection, a: string, b: string)
    ensures ChooseOption(s, a).option == a
    ensures ChooseOption(s, a).category == s.category && ChooseOption(s, a).extras == s.extras
    ensures ChooseOption(ChooseOption(s, a), b) == ChooseOption(s, b)
  {
  }

  /** Toggling an absent id twice restores the original list exactly. */
  lemma {:induction false} ToggleTwiceAbsent(xs: seq<string>, id: string)
    requires id !in xs
    ensures Toggle(Toggle(xs, id), id) == xs
  {
    WithoutAppend(xs, id, id);
    WithoutAbsent(xs, id);
    assert Without([id], id) == [];
  }

  /** Toggling twice an id that occurs once, in the last place, also restores the list exactly. */
  lemma {:induction false} ToggleTwiceLast(xs: seq<string>, id: string)
    requires id !in xs
    ensures Toggle(Toggle(xs + [id], id), id) == xs + [id]
  {
    assert id in xs + [id];
    WithoutAppend(xs, id, id);
    WithoutAbsent(xs, id);
    assert Without([id], id) == [];
  }

  /**
   * Toggling any id twice restores a duplicate-free list up to order: the same
   * ids are chosen, although a present id moves to the end.
   */
  lemma {:induction false} ToggleTwiceSameIds(xs: seq<string>, id: string)
    requires NoDuplicates(xs)
    ensures multiset(Toggle(Toggle(xs, id), id)) == multiset(xs)
  {
    if id in xs {
      var once := Toggle(xs, id);
      var twice := Toggle(once, id);
      NoDuplicatesCount(xs, id);
      assert twice == once + [id];
      forall y
        ensures multiset(twice)[y] == multiset(xs)[y]
      {
      }
    } else {
      ToggleTwiceAbsent(xs, id);
    }
  }

  /** Toggling a present id twice does not in general restore the list's order. */
  lemma ToggleTwiceReorders()
    ensures Toggle(Toggle(["seo", "multilanguage"], "seo"), "seo") == ["multilanguage", "seo"]
  {
    assert "seo" != "multilanguage";
    assert Without(["seo", "multilanguage"], "seo") == ["multilanguage"];
  }

  /** Toggling an extra of the category keeps a selection consistent with it. */
  lemma ToggleKeepsConsistent(cat: Category, s: Selection, id: string)
    requires ConsistentWith(cat, s)
    requires FindItem(cat.extras, id).Some?
    ensures ConsistentWith(cat, ToggleExtra(s, id))
  {
    var r := Toggle(s.extras, id);
    if id in s.extras {
      NoDuplicatesOfSubsequence(r, s.extras);
      forall i | 0 <= i < |r|
        ensures FindItem(cat.extras, r[i]).Some?
      {
        assert r[i] in s.extras;
      }
    } else {
      forall i | 0 <= i < |r|
        ensures FindItem(cat.extras, r[i]).Some?
      {
        if i < |s.extras| {
          assert r[i] == s.extras[i];
        }
      }
    }
  }

  /** An offered event keeps the selection consistent with the active category. */
  lemma StepKeepsConsistent(s: Selection, e: Event)
    requires Consistent(s) && Offered(s, e)
    ensures Consistent(Step(s, e))
  {
    if e.ClickExtra? {
      ToggleKeepsConsistent(CurrentCategory(s.category), s, e.id);
    }
  }

  /** Every state the view can reach from the initial state is consistent. */
  lemma {:induction false} ReachableIsConsistent(s: Selection, events: seq<Event>)
    requires Consistent(s) && AllOffered(s, events)
    ensures Consistent(Run(s, events))
    decreases |events|
  {
    if |events| > 0 {
      StepKeepsConsistent(s, events[0]);
      ReachableIsConsistent(Step(s, events[0]), events[1..]);
    }
  }
}

=== FILE: wrappers.dfy ===
/** Failure-carrying datatypes shared by the quoter modules. */
module Wrappers {

  /** An optional value: the model of a JavaScript lookup that may yield `undefined`. */
  datatype Option<+T> = None | Some(value: T)

  /** The outcome of an operation that can refuse its input. */
  datatype Result<+R, +E> = Ok(value: R) | Err(error: E)
}
